=== FILE: README.md ===
# Presence-aware chat hub: the WebSocket connection handler in Dafny

This project models the core of a small real-time chat server: the handler
that runs for every WebSocket connection (`index.js`, lines 80-177). Lifted
out of its I/O, that handler does five things, each modelled here as pure
functions over immutable values or as a small event-driven state machine:

- **Message acceptance and routing** (`Messages`): given the decoded
  `{recipient, text, file}`, the sender's `userId` and the registry snapshot,
  decide whether a message is created, what file is written, and which
  connections receive which delivery frame.
- **Presence projection** (`Registry`): map the open connections to the
  `online` array of `{userId, username}` and send it to every connection.
- **Cookie token extraction** (`Handshake`): cut the session token out of the
  raw `Cookie` header and resolve the connection's identity and username.
- **Upload naming** (`Uploads`): derive `<timestamp>.<ext>` from the clock
  reading and the original file name, and take the base64 body of the data URL.
- **Heartbeat** (`Heartbeat`): the per-connection ping/deadline machine driven
  by the events Tick, Pong and DeadlineFire.

Supporting modules give exact models of the JavaScript built-ins these rely
on: `Strings` (`split` on a one-character separator, whose search step is the
model's own `IndexOf`; the substring search behind `match`; `find`), `Decimals`
(a timestamp's decimal spelling), `Js` (JSON values, truthiness, `===`) and
`Wrappers` (`Option`, standing for `undefined`).

The registry (`wss.clients`) is a `seq<Client>` in iteration order; a client's
`userId` and `username` are `Option<string>`. Token verification (a verdict:
rejected, or accepted with an optional id), the user directory lookup (found,
not found, or failed), the message store's reply and the clock are parameters.

Behaviours of the code that the model keeps and a reader might not expect:

- A message is accepted on JavaScript truthiness: `recipient && (text || file)`.
  Non-string values are therefore accepted or rejected by truthiness too
  (text `0` is rejected, text `true` accepted).
- Fan-out goes to every connection whose `userId === recipient`, including
  the sender's own connections when a user writes to themselves.
- When a connection opens, every connection is sent the presence frame twice:
  once by the inline loop (lines 133-136) and once by the call at line 176.
- The token comes from the first `;`-separated segment that *contains*
  `token=`, so a cookie such as `csrftoken=...` placed before `token=...`
  supplies the token (`Handshake.CookieNameEndingInToken`).
- A token the verifier rejects, or a failed user lookup, ends the connection
  handler at the `await` on line 114: the verifier's callback is `async` and its
  promise is what the verifier returns, so the `throw` at line 115 (or 126)
  rejects that await. No presence frame is sent and no `message` listener is
  attached. Nothing in the handler closes the socket; the rejection that
  escapes the handler is unhandled, and by Node's default it ends the whole
  process.
- An attachment whose data has no comma makes `new Buffer(undefined, 'base64')`
  throw at line 150, and a rejected `Message.create` at line 157 throws too:
  nothing is written, created or sent for that message, and the listener's
  promise is rejected with nothing to handle it.
- The presence broadcast that follows a forced termination projects whatever
  the registry holds at that moment.

## Model

| member | source | states |
|---|---|---|
| Strings.IndexOf | index.js:110 | the position found holds the character and no earlier position does; none is found only when the character is absent |
| Strings.IndexOfIs | index.js:110 | the first occurrence is unique, so any position meeting that description is the one `IndexOf` returns |
| Strings.Split | index.js:110 | `split` yields at least one piece and no piece contains the separator |
| Strings.SplitThenJoin | index.js:110 | joining the pieces of a split with the separator gives back the original string |
| Strings.JoinThenSplit | index.js:110 | separator-free pieces joined by the separator split back into exactly those pieces |
| Strings.PieceOne | index.js:112 | `split(sep)[1]` exists if and only if the separator occurs, and it is then exactly the text between the first and the second separator (or the end) |
| Strings.LastPieceIsSuffix | index.js:146-147 | the last piece of a split is the separator-free suffix preceded by a separator or by nothing |
| Strings.LastPieceAfter | index.js:146-147 | any separator-free text that follows a separator at the end of a string is its last piece |
| Strings.ContainsIff | index.js:110 | the substring search used by `match('token=')` succeeds if and only if the pattern occurs at some position |
| Strings.FirstContaining | index.js:110 | `find` returns the first segment containing the pattern, and nothing exactly when no segment contains it |
| Decimals.Decimal | index.js:148 | a timestamp is spelled as a non-empty string of digits without a leading zero and without a dot |
| Decimals.ValueOfDecimal | index.js:148 | reading the digits back gives the timestamp |
| Decimals.DecimalInjective | index.js:148 | different timestamps have different spellings |
| Js.TruthyIdentityMatch | index.js:165 | a truthy recipient is `===` to a connection's `userId` only when that connection is authenticated under exactly that string |
| Registry.Online | index.js:86 | the `online` array has one entry per open connection, in registry order, carrying that connection's `userId` and `username` |
| Registry.PresenceIsNotDeduplicated | index.js:86 | two connections under one identity give two entries with that identity |
| Registry.PresenceListsOnlyRegisteredIdentities | index.js:134 | an identity appears in the presence frame if and only if some registered connection carries it |
| Registry.NotifyAboutOnlinePeople | index.js:83-89 | every connection in the snapshot, in order, is sent the one presence frame computed from that same snapshot |
| Registry.FanOut | index.js:164-172 | the frame is sent once to each connection whose `userId === recipient`, in registry order, and to no other connection |
| Registry.EveryConnectionOfTheIdentityIsReached | index.js:164-166 | every connection of the recipient identity, however many there are, receives the delivery frame |
| Handshake.ExtractToken | index.js:107-113 | a token, when found, is non-empty and contains no `=` |
| Handshake.ExtractTokenIsSessionToken | index.js:110-113 | the extracted token is exactly the non-empty text between the first and second `=` of the first `;`-segment in which `token=` occurs |
| Handshake.NoTokenCases | index.js:107-113 | no token is found exactly when the header is absent or empty, no segment contains `token=`, or that segment's text between the first and second `=` is empty |
| Handshake.MarkerHasSecondField | index.js:111-112 | a segment containing `token=` always has a second `=`-separated field, so the `[1]` index is never undefined there |
| Handshake.CookieNameEndingInToken | index.js:110-112 | a first cookie whose name ends in `token` supplies the token even when a cookie named `token` follows |
| Handshake.Authenticate | index.js:107-128 | the connection gets an identity exactly when a token was found and the verifier accepted it with an id, and then that id; a username exactly when the directory found the user; the handler stops exactly when the verifier rejects the token or the lookup fails |
| Handshake.IdentityComesFromSessionToken | index.js:107-122 | a connection is authenticated as an identity exactly when its header carries a session token the verifier accepts with that id; a carried token the verifier rejects stops the handler |
| Handshake.Connect | index.js:114-176 | when the handshake completes, every connection including the new one is sent the same presence frame twice, in registry order each time, and the message listener is attached; when the verifier rejects or the lookup fails, nothing is sent and no listener is attached; the frame lists the earlier connections in order and the new one last |
| Uploads.Extension | index.js:146-147 | the extension is the dot-free text after the last `.` of the original name, or the whole name when it has no dot |
| Uploads.StoredName | index.js:148 | the stored name splits on `.` into exactly the timestamp's digits and the original extension, so it keeps the extension |
| Uploads.StoredNamesCollideOnlyWithinOneMillisecond | index.js:148 | two stored names are equal if and only if they were made in the same millisecond from names with the same extension |
| Uploads.Base64Body | index.js:150 | the body exists if and only if the data contains a comma, and contains no comma itself |
| Uploads.Base64BodyIsSecondField | index.js:150 | the body is exactly the text between the first and second comma of the data |
| Uploads.DataUrlBody | index.js:150 | for a data URL with a single comma the body is everything after it |
| Messages.AcceptsStringPayload | index.js:156 | with string fields, a message is accepted exactly when the recipient is non-empty and the text is non-empty or a file is present; empty text and no file is rejected |
| Messages.HandleMessage | index.js:138-174 | the file is written whenever one is sent, under the stored name; a message is created if and only if `recipient && (text || file)`; its `file` is the written name or null; a created and stored message is delivered, with text, sender, recipient, file and id, to exactly the recipient's connections; nothing is sent otherwise; data without a comma stops everything |
| Heartbeat.Step | index.js:92-105 | `isAlive` is never regained; a pong leaves it unchanged and clears the deadline; only a tick pings, and a tick arms the deadline; only the deadline terminates and only it triggers a presence broadcast; no event happens to a terminated connection |
| Heartbeat.RunStaysValid | index.js:92-105 | along any run the connection is either alive with its interval running, or terminated with both timers gone, and liveness never returns |
| Heartbeat.TerminatedAtMostOnce | index.js:95-99 | a run terminates the connection at most once, exactly once if it ends terminated, and each termination is paired with one presence broadcast |
| Heartbeat.NothingAfterTermination | index.js:96-98 | once terminated, no tick, pong or deadline occurs |
| Heartbeat.TerminationEndsTheRun | index.js:95-99 | termination followed by its presence broadcast is the last thing a run does, so no ping follows it |
| Heartbeat.FromConnectionStart | index.js:92-105 | from the handler's start, the connection is alive exactly until its single termination, which is always announced |
| Heartbeat.PongBeforeDeadlineSurvives | index.js:93-105 | a peer that answers the ping before the deadline stays alive and leaves no deadline to fire |
| Heartbeat.SilentPeerIsTerminated | index.js:93-101 | a peer that does not answer is terminated, with one ping, one termination and one presence broadcast, and is never ticked again |

## Left out

- JSON decoding and encoding: the payload arrives decoded, and frames are values rather than JSON text. An undecodable message is not modelled.
- A truthy `file` that is not an object with string `name` and `data`: the handler would throw on it; the model's attachment always has both fields.
- Objects and arrays in `recipient` or `text` are represented only as truthy values that never equal an identity.
- The file write itself, base64 decoding and the upload directory path: only the stored name and the text handed to the decoder are modelled.
- The clock: `Date.now()` is a parameter, spelled in plain decimal (true of every millisecond timestamp below 10^21).
- Token verification and the user lookup are parameters returning a verdict and a lookup reply; their internals are not modelled. Their failures are modelled as the end of the connection handler, not as the unhandled rejection that follows it.
- Messages, heartbeat events and other connections opening or closing while the handshake is awaited: the source awaits the verifier and the lookup before broadcasting, and the model treats the handshake as one step.
- The message store: its reply to the create call (an id or a rejection) is a parameter; `createdAt` and the saved document's other fields are not modelled.
- The WebSocket library: when a connection enters or leaves `wss.clients`, the `close` event, and send failures. The new connection is taken to be last in the snapshot, which is where insertion order puts it when no other connection opens or closes during the awaited handshake.
- Timers: the 5000 ms interval and 1000 ms deadline are recorded as `Heartbeat.IntervalMs` and `Heartbeat.DeadlineMs` only; time is a sequence of events. A tick while a deadline is armed cannot occur because the deadline is shorter than the interval, so `Heartbeat.Enabled` excludes it.
- Handshake.Connect: a handshake that is not `completed` stands for the end of the `async` connection handler; the unhandled promise rejection that follows the throw at line 115 or the rethrown lookup error at line 126 (which, by Node's default, ends the whole process) is not modelled.
- Messages.HandleMessage: a `failure` stands for the end of the `async` message listener; the unhandled promise rejection that follows the throw at line 150 or the rejected create at line 157 (which, by Node's default, ends the whole process) is not modelled.
- Heartbeat.Step: a `NotifyPresence` effect stands for the call to `notifyAboutOnlinePeople()`, whose frame is `Registry.NotifyAboutOnlinePeople` applied to the registry at that moment.
- The HTTP routes `/messages/:userId` and `/people`, `getUserDataFromRequest`, the authentication controller, database setup, CORS, helmet, static file serving and logging: outside the connection handler.

=== FILE: decimals.dfy ===
/** JavaScript's conversion of a non-negative integral Number to a string,
    as it happens in `Date.now() + '.'`: plain decimal digits with no leading
    zero. */
module Decimals {

  predicate IsDigit(c: char)
  {
    '0' <= c <= '9'
  }

  predicate AllDigits(s: string)
  {
    forall k :: 0 <= k < |s| ==> IsDigit(s[k])
  }

  function DigitChar(d: nat): (c: char)
    requires d < 10
    ensures IsDigit(c) && c as int - '0' as int == d
  {
    (d + '0' as int) as char
  }

  /** The decimal spelling of `n`. */
  function Decimal(n: nat): (s: string)
    ensures |s| >= 1 && AllDigits(s)
    ensures s[0] == '0' ==> n == 0
    ensures '.' !in s
  {
    if n < 10 then [DigitChar(n)]
    else Decimal(n / 10) + [DigitChar(n % 10)]
  }

  /** The number a string of digits spells. */
  function Value(s: string): nat
    requires AllDigits(s)
  {
    if |s| == 0 then 0
    else Value(s[..|s| - 1]) * 10 + (s[|s| - 1] as int - '0' as int)
  }

  /** Reading the spelling back gives the number. */
  lemma {:induction false} ValueOfDecimal(n: nat)
    ensures Value(Decimal(n)) == n
  {
    if n >= 10 {
      var s := Decimal(n);
      assert s[..|s| - 1] == Decimal(n / 10);
      ValueOfDecimal(n / 10);
    }
  }

  /** Distinct numbers have distinct spellings. */
  lemma DecimalInjective(m: nat, n: nat)
    requires Decimal(m) == Decimal(n)
    ensures m == n
  {
    ValueOfDecimal(m);
    ValueOfDecimal(n);
  }
}

=== FILE: handshake.dfy ===
/** What happens when a WebSocket connection opens: the session token is cut
    out of the raw `Cookie` header, the verifier and the user directory turn it
    into an identity and a display name, and the presence frame is broadcast
    to every connection. The token verifier and the user lookup are
    parameters: `verify` yields the verdict on a token, and `lookup` what the
    directory answers for an identity. */
module Handshake {
  import opened Wrappers
  import opened Strings
  import opened Registry

  /** The text a cookie segment is searched for. */
  const TokenMarker := "token="

  /** `cookies.split(';').find(str => str.match('token='))`, then
      `.split('=')[1]`; an absent or empty header, a header with no such
      segment, and an empty value all give no token. */
  function ExtractToken(header: Option<string>): (r: Option<string>)
    ensures r.Some? ==> header.Some? && r.value != "" && '=' !in r.value
  {
    match header
    case None => None
    case Some(h) =>
      if h == "" then None
      else
        var segs := Split(h, ';');
        match FirstContaining(segs, TokenMarker)
        case None => None
        case Some(j) =>
          match Piece(segs[j], '=', 1)
          case None => None
          case Some(t) => if t == "" then None else Some(t)
  }

  /** Segment `j` is the first one in which "token=" occurs. */
  ghost predicate FirstTokenSegment(segs: seq<string>, j: nat)
  {
    && j < |segs|
    && (exists p: nat :: OccursAt(segs[j], TokenMarker, p))
    && forall k :: 0 <= k < j ==> !exists p: nat :: OccursAt(segs[k], TokenMarker, p)
  }

  /** `t` is the session token of the header: the non-empty text between the
      first and second '=' of the first ';'-separated segment in which
      "token=" occurs. */
  ghost predicate SessionToken(header: string, t: string)
  {
    var segs := Split(header, ';');
    t != "" && exists j: nat, i: nat :: FirstTokenSegment(segs, j) && SecondField(segs[j], '=', i, t)
  }

  lemma ContainsEverywhere(segs: seq<string>)
    ensures forall k :: 0 <= k < |segs| ==>
      (Contains(segs[k], TokenMarker) <==> exists p: nat :: OccursAt(segs[k], TokenMarker, p))
  {
    forall k | 0 <= k < |segs|
      ensures Contains(segs[k], TokenMarker) <==> exists p: nat :: OccursAt(segs[k], TokenMarker, p)
    {
      ContainsIff(segs[k], TokenMarker);
    }
  }

  /** A segment holding "token=" holds an '=', so its second field exists. */
  lemma MarkerHasSecondField(seg: string)
    requires exists p: nat :: OccursAt(seg, TokenMarker, p)
    ensures Piece(seg, '=', 1).Some?
  {
    var p: nat :| OccursAt(seg, TokenMarker, p);
    assert seg[p + 5] == seg[p..p + 6][5] == '=';
    PieceOne(seg, '=', "");
  }

  /** `ExtractToken` returns exactly the session token of the header. */
  lemma ExtractTokenIsSessionToken(header: string, t: string)
    ensures ExtractToken(Some(header)) == Some(t) <==> SessionToken(header, t)
  {
    var segs := Split(header, ';');
    ContainsEverywhere(segs);
    match FirstContaining(segs, TokenMarker)
    case None =>
      assert forall j: nat :: !FirstTokenSegment(segs, j);
    case Some(j) =>
      assert FirstTokenSegment(segs, j);
      assert forall j': nat :: FirstTokenSegment(segs, j') ==> j' == j;
      MarkerHasSecondField(segs[j]);
      PieceOne(segs[j], '=', t);
  }

  lemma EmptyHeaderHasNoToken()
    ensures FirstContaining(Split("", ';'), TokenMarker).None?
  {
    assert Split("", ';') == [""];
    assert !Contains("", TokenMarker);
  }

  /** No segment holds "token=", or the first one that does has nothing
      between its first and second '='. */
  ghost predicate TokenMissing(h: string)
  {
    var segs := Split(h, ';');
    || (forall j: nat :: !FirstTokenSegment(segs, j))
    || (exists j: nat, i: nat :: FirstTokenSegment(segs, j) && SecondField(segs[j], '=', i, ""))
  }

  /** The three ways a connection is left without a token: no (or an empty)
      `Cookie` header, no segment holding "token=", or nothing between the
      first and second '=' of that segment. */
  lemma NoTokenCases(header: Option<string>)
    ensures ExtractToken(header).None? <==> header.None? || TokenMissing(header.value)
  {
    if header.Some? {
      var h := header.value;
      var segs := Split(h, ';');
      ContainsEverywhere(segs);
      match FirstContaining(segs, TokenMarker)
      case None =>
        assert forall j: nat :: !FirstTokenSegment(segs, j);
        assert ExtractToken(header).None?;
      case Some(j) =>
        assert FirstTokenSegment(segs, j);
        assert forall j': nat :: FirstTokenSegment(segs, j') ==> j' == j;
        MarkerHasSecondField(segs[j]);
        PieceOne(segs[j], '=', "");
        var t := Piece(segs[j], '=', 1).value;
        EmptyHeaderHasNoToken();
        assert h != "";
        assert ExtractToken(header) == (if t == "" then None else Some(t));
        assert (exists j': nat, i: nat :: FirstTokenSegment(segs, j') && SecondField(segs[j'], '=', i, "")) <==> t == "";
        assert !(forall j': nat :: !FirstTokenSegment(segs, j'));
        assert TokenMissing(h) <==> t == "";
        assert ExtractToken(header).None? <==> t == "";
    }
  }

  /** The search is for a substring, not a cookie name: a first cookie whose
      name merely ends in "token" (a `csrftoken`, say) supplies the token,
      whatever cookie named `token` follows it. */
  lemma CookieNameEndingInToken(name: string, value: string, rest: string)
    requires '=' !in name && ';' !in name && '=' !in value && ';' !in value && value != ""
    requires |name| >= 5 && name[|name| - 5..] == "token"
    ensures ExtractToken(Some(name + "=" + value + ";" + rest)) == Some(value)
  {
    var seg := name + "=" + value;
    var h := seg + ";" + rest;
    assert h[..|seg|] == seg;
    IndexOfIs(h, ';', |seg|);
    var segs := Split(h, ';');
    assert segs[0] == seg;
    assert seg[|name| - 5..|name| + 1] == TokenMarker;
    assert OccursAt(seg, TokenMarker, |name| - 5);
    ContainsIff(seg, TokenMarker);
    assert FirstContaining(segs, TokenMarker) == Some(0);
    assert seg[..|name|] == name;
    IndexOfIs(seg, '=', |name|);
    assert seg[|name| + 1..] == value;
    assert Split(value, '=') == [value];
    assert Split(seg, '=') == [name, value];
  }

  /** What the token verifier's callback receives: an error (a bad, expired
      or forged token), or the decoded payload, whose `id` may be absent. */
  datatype Verdict = Rejected | Accepted(id: Option<string>)

  /** What `User.findById(id)` settles to: a user, no user, or a rejection. */
  datatype LookupReply = Found(username: string) | NotFound | LookupFailed

  /** The connection's fields once the handshake code has run, and whether the
      handler went on past the cookie block (`completed`). The verifier's
      callback is `async` and its promise is what the verifier returns and the
      handler awaits, so the callback's `throw err` and the rethrown lookup
      error reject that await and end the handler there. */
  datatype HandshakeResult = HandshakeResult(client: Client, completed: bool)

  /** `ws.userId` and `ws.username` after the handshake: the identity is set
      only when a token was found and the verifier accepted it with an id; the
      username only when the directory found that user. A rejected token or a
      failed lookup stops the handler. */
  function Authenticate(header: Option<string>, verify: string -> Verdict, lookup: Option<string> -> LookupReply): (h: HandshakeResult)
    // without a token nothing is resolved and the handler carries on
    ensures ExtractToken(header).None? ==> h == HandshakeResult(Client(None, None), true)
    // the identity is the one the verifier accepted, and only that
    ensures h.client.userId.Some? <==>
      ExtractToken(header).Some? && verify(ExtractToken(header).value).Accepted?
      && verify(ExtractToken(header).value).id.Some?
    ensures h.client.userId.Some? ==> h.client.userId == verify(ExtractToken(header).value).id
    // the username comes from the directory alone
    ensures h.client.username.Some? <==>
      ExtractToken(header).Some? && verify(ExtractToken(header).value).Accepted?
      && lookup(h.client.userId).Found?
    ensures h.client.username.Some? ==> h.client.username.value == lookup(h.client.userId).username
    // the handler stops exactly when the verifier rejects or the lookup fails
    ensures !h.completed <==>
      ExtractToken(header).Some? &&
      (verify(ExtractToken(header).value).Rejected?
       || lookup(verify(ExtractToken(header).value).id) == LookupFailed)
  {
    match ExtractToken(header)
    case None => HandshakeResult(Client(None, None), true)
    case Some(token) =>
      match verify(token)
      case Rejected => HandshakeResult(Client(None, None), false)
      case Accepted(id) =>
        match lookup(id)
        case Found(name) => HandshakeResult(Client(id, Some(name)), true)
        case NotFound => HandshakeResult(Client(id, None), true)
        case LookupFailed => HandshakeResult(Client(id, None), false)
  }

  /** Read against the header itself: a connection is authenticated as `id`
      exactly when its header carries a session token the verifier accepts with
      that id, and a carried token the verifier rejects stops the handler. */
  lemma IdentityComesFromSessionToken(header: string, verify: string -> Verdict, lookup: Option<string> -> LookupReply, id: string)
    ensures Authenticate(Some(header), verify, lookup).client.userId == Some(id)
        <==> exists t :: SessionToken(header, t) && verify(t) == Accepted(Some(id))
    ensures (exists t :: SessionToken(header, t) && verify(t).Rejected?)
        ==> !Authenticate(Some(header), verify, lookup).completed
  {
    forall t | SessionToken(header, t)
      ensures ExtractToken(Some(header)) == Some(t)
    {
      ExtractTokenIsSessionToken(header, t);
    }
    match ExtractToken(Some(header))
    case None =>
    case Some(t) =>
      ExtractTokenIsSessionToken(header, t);
  }

  /** A connection opens with `others` already registered; the library places
      it last in the snapshot. When the handshake completes, the presence frame
      is broadcast twice (once by the inline loop, once more by
      `notifyAboutOnlinePeople()` at the end of the handler) and the `message`
      listener is attached. When it stops early, neither happens. */
  method Connect(others: seq<Client>, header: Option<string>, verify: string -> Verdict, lookup: Option<string> -> LookupReply)
    returns (client: Client, sends: seq<Send>, listening: bool)
    ensures client == Authenticate(header, verify, lookup).client
    ensures listening == Authenticate(header, verify, lookup).completed
    ensures listening ==> sends == PresenceToAll(others + [client]) + PresenceToAll(others + [client])
    ensures !listening ==> sends == []
    ensures PresenceFrame(others + [client]).online == Online(others) + [EntryOf(client)]
  {
    var h := Authenticate(header, verify, lookup);
    client := h.client;
    listening := h.completed;
    if !h.completed {
      sends := [];
      return;
    }
    var registry := others + [client];
    var inline := NotifyAboutOnlinePeople(registry);
    var notified := NotifyAboutOnlinePeople(registry);
    sends := inline + notified;
  }
}

=== FILE: heartbeat.dfy ===
/** The per-connection liveness check, as a state machine over discrete
    events. Every 5000 ms the interval timer ticks: the server pings the peer
    and arms a 1000 ms deadline. A pong clears the deadline. If the deadline
    fires, the connection is marked dead, the interval is cleared, the socket
    is terminated and the presence frame is broadcast again. Because the
    deadline is shorter than the interval, a tick never finds a deadline
    still armed. */
module Heartbeat {

  const IntervalMs := 5000
  const DeadlineMs := 1000

  /** `ws.isAlive`; whether `ws.timer` is still scheduled; whether
      `ws.deathTimer` is armed and not cleared; whether `ws.terminate()` has
      run. */
  datatype HeartbeatState = HeartbeatState(isAlive: bool, heartbeatRunning: bool, deadlinePending: bool, terminated: bool)

  datatype Event = Tick | Pong | DeadlineFire

  /** What a step does outside the connection's own state. */
  datatype Effect = Ping | Terminate | NotifyPresence

  /** The state right after the connection handler starts. */
  const Initial := HeartbeatState(true, true, false, false)

  /** Which events can happen in a state: the interval ticks while scheduled
      (and, since `DeadlineMs` < `IntervalMs`, only once the previous deadline
      is resolved); pongs arrive while the socket is not terminated; the
      deadline fires only while armed. */
  predicate Enabled(s: HeartbeatState, e: Event)
  {
    match e
    case Tick => s.heartbeatRunning && !s.deadlinePending
    case Pong => !s.terminated
    case DeadlineFire => s.deadlinePending
  }

  /** The states reachable from `Initial`: either running and alive, or
      terminated with both timers gone. */
  predicate Valid(s: HeartbeatState)
  {
    && (s.isAlive <==> !s.terminated)
    && (s.heartbeatRunning <==> !s.terminated)
    && (s.terminated ==> !s.deadlinePending)
  }

  function Step(s: HeartbeatState, e: Event): (r: (HeartbeatState, seq<Effect>))
    requires Enabled(s, e)
    ensures Valid(s) ==> Valid(r.0)
    // liveness is only ever lost, never regained
    ensures r.0.isAlive ==> s.isAlive
    ensures e == Pong ==> r.0.isAlive == s.isAlive && !r.0.deadlinePending
    // termination is final and happens on the deadline alone
    ensures Valid(s) ==> !s.terminated
    ensures Valid(s) ==> (r.0.terminated <==> e == DeadlineFire)
    ensures Ping in r.1 <==> e == Tick
    ensures e == Tick ==> r.0.deadlinePending
    ensures NotifyPresence in r.1 <==> e == DeadlineFire
    ensures Terminate in r.1 <==> e == DeadlineFire
  {
    match e
    case Tick =>
      (s.(deadlinePending := true), [Ping])
    case Pong =>
      (s.(deadlinePending := false), [])
    case DeadlineFire =>
      (HeartbeatState(false, false, false, true), [Terminate, NotifyPresence])
  }

  /** A sequence of events each of which can happen when it comes. */
  predicate Feasible(s: HeartbeatState, events: seq<Event>)
    decreases |events|
  {
    |events| == 0 || (Enabled(s, events[0]) && Feasible(Step(s, events[0]).0, events[1..]))
  }

  /** The state after a run of events and everything the run did, in order. */
  function Run(s: HeartbeatState, events: seq<Event>): (HeartbeatState, seq<Effect>)
    requires Feasible(s, events)
    decreases |events|
  {
    if |events| == 0 then (s, [])
    else
      var (next, out) := Step(s, events[0]);
      var (last, rest) := Run(next, events[1..]);
      (last, out + rest)
  }

  function Count(effects: seq<Effect>, x: Effect): nat
  {
    if |effects| == 0 then 0
    else (if effects[0] == x then 1 else 0) + Count(effects[1..], x)
  }

  lemma CountAppend(a: seq<Effect>, b: seq<Effect>, x: Effect)
    ensures Count(a + b, x) == Count(a, x) + Count(b, x)
  {
    if |a| > 0 {
      assert (a + b)[1..] == a[1..] + b;
      CountAppend(a[1..], b, x);
    } else {
      assert a + b == b;
    }
  }

  /** Along any run, every state stays valid and liveness never comes back. */
  lemma {:induction false} RunStaysValid(s: HeartbeatState, events: seq<Event>)
    requires Valid(s) && Feasible(s, events)
    ensures Valid(Run(s, events).0)
    ensures Run(s, events).0.isAlive ==> s.isAlive
    decreases |events|
  {
    if |events| > 0 {
      RunStaysValid(Step(s, events[0]).0, events[1..]);
    }
  }

  /** A connection is terminated at most once, and exactly once if it ends
      terminated; every termination is followed by one presence broadcast,
      and after it nothing more happens. */
  lemma {:induction false} TerminatedAtMostOnce(s: HeartbeatState, events: seq<Event>)
    requires Valid(s) && Feasible(s, events)
    ensures var (last, effects) := Run(s, events);
      && Count(effects, Terminate) == (if last.terminated && !s.terminated then 1 else 0)
      && Count(effects, NotifyPresence) == Count(effects, Terminate)
      && (last.terminated ==> !last.isAlive && !last.heartbeatRunning)
    decreases |events|
  {
    if |events| > 0 {
      var (next, out) := Step(s, events[0]);
      var (last, rest) := Run(next, events[1..]);
      TerminatedAtMostOnce(next, events[1..]);
      RunStaysValid(next, events[1..]);
      CountAppend(out, rest, Terminate);
      CountAppend(out, rest, NotifyPresence);
      if next.terminated {
        NothingAfterTermination(next, events[1..]);
        assert rest == [];
      }
    }
  }

  /** Once terminated, no further event happens: no tick, no pong, no deadline. */
  lemma NothingAfterTermination(s: HeartbeatState, events: seq<Event>)
    requires Valid(s) && s.terminated && Feasible(s, events)
    ensures events == []
  {
  }

  /** Termination, followed by its one presence broadcast, is the last thing a
      run does: in particular no ping is ever sent after it. */
  lemma {:induction false} TerminationEndsTheRun(s: HeartbeatState, events: seq<Event>)
    requires Valid(s) && Feasible(s, events)
    ensures var effects := Run(s, events).1;
      forall a :: 0 <= a < |effects| && effects[a] == Terminate ==>
        a + 2 == |effects| && effects[a + 1] == NotifyPresence
    decreases |events|
  {
    if |events| > 0 {
      var (next, out) := Step(s, events[0]);
      var (last, rest) := Run(next, events[1..]);
      TerminationEndsTheRun(next, events[1..]);
      if events[0] == DeadlineFire {
        NothingAfterTermination(next, events[1..]);
        assert out + rest == [Terminate, NotifyPresence];
      } else {
        assert Run(s, events).1 == out + rest;
        assert forall a :: 0 <= a < |out| ==> (out + rest)[a] == out[a] != Terminate;
        forall a | |out| <= a < |out + rest| && (out + rest)[a] == Terminate
          ensures a + 2 == |out + rest| && (out + rest)[a + 1] == NotifyPresence
        {
          var b := a - |out|;
          assert rest == Run(next, events[1..]).1;
          assert rest[b] == Terminate;
          assert b + 2 == |rest| && rest[b + 1] == NotifyPresence;
          assert (out + rest)[a + 1] == rest[b + 1];
        }
      }
    }
  }

  /** From the moment the handler starts: the connection is alive exactly
      until the single termination, which is always announced. */
  lemma FromConnectionStart(events: seq<Event>)
    requires Feasible(Initial, events)
    ensures var (last, effects) := Run(Initial, events);
      && Valid(last)
      && Count(effects, Terminate) <= 1
      && (last.isAlive <==> Count(effects, Terminate) == 0)
      && Count(effects, NotifyPresence) == Count(effects, Terminate)
  {
    RunStaysValid(Initial, events);
    TerminatedAtMostOnce(Initial, events);
  }

  /** A peer that answers the probe before the deadline survives the cycle:
      the connection stays alive and no deadline remains to fire. */
  lemma PongBeforeDeadlineSurvives(s: HeartbeatState)
    requires Valid(s) && !s.terminated && !s.deadlinePending
    ensures Feasible(s, [Tick, Pong])
    ensures var (last, effects) := Run(s, [Tick, Pong]);
      last == s && effects == [Ping] && !Enabled(last, DeadlineFire)
  {
    assert [Tick, Pong][1..] == [Pong];
  }

  /** A peer that stays silent after the probe is terminated, and the presence
      frame is broadcast once. */
  lemma SilentPeerIsTerminated(s: HeartbeatState)
    requires Valid(s) && !s.terminated && !s.deadlinePending
    ensures Feasible(s, [Tick, DeadlineFire])
    ensures var (last, effects) := Run(s, [Tick, DeadlineFire]);
      last.terminated && !last.isAlive && effects == [Ping, Terminate, NotifyPresence]
      && !Enabled(last, Tick)
  {
    assert [Tick, DeadlineFire][1..] == [DeadlineFire];
  }
}

=== FILE: js.dfy ===
/** The JavaScript values a field of a JSON-decoded message can hold, with
    the two operations the handler applies to them: truthiness (`if (x)`,
    `a && b`, `a || b`) and strict equality against a connection's identity. */
module Js {
  import opened Wrappers

  /** A decoded JSON value. `Undefined` is an absent key. Objects and arrays
      are represented only by `Object`, since the handler tests them for
      truthiness and identity alone. */
  datatype JsValue =
    | Undefined
    | Null
    | Bool(b: bool)
    | Num(x: real)
    | Str(s: string)
    | Object

  /** JavaScript truthiness. JSON cannot produce NaN, so the only falsy
      number is zero. */
  predicate Truthy(v: JsValue)
  {
    match v
    case Undefined => false
    case Null => false
    case Bool(b) => b
    case Num(x) => x != 0.0
    case Str(s) => s != ""
    case Object => true
  }

  /** `userId === v`, where a connection's `userId` is either unset
      (`undefined`) or the string identity taken from its session token. */
  predicate SameIdentity(userId: Option<string>, v: JsValue)
  {
    match userId
    case None => v == Undefined
    case Some(id) => v == Str(id)
  }

  /** The identity comparison only ever matches a truthy value when the
      connection is authenticated and the value is that identity's string. */
  lemma TruthyIdentityMatch(userId: Option<string>, v: JsValue)
    requires Truthy(v)
    ensures SameIdentity(userId, v) <==> userId.Some? && v == Str(userId.value)
  {
  }
}

=== FILE: messages.dfy ===
/** The `message` listener of a connection: it derives the attachment's
    stored name, starts the file write, decides whether a message is created,
    and delivers the created message to every connection of the recipient.
    JSON decoding is done by the caller; the message store's reply to the
    create call (the new `_id`, or a rejection) is a parameter. */
module Messages {
  import opened Wrappers
  import opened Js
  import opened Registry
  import opened Uploads

  /** `{recipient, text, file}` as destructured from the decoded message. */
  datatype Payload = Payload(recipient: JsValue, text: JsValue, file: Option<Attachment>)

  /** `fs.writeFile(__dirname + '/uploads/' + storedName, base64-decoded body)`. */
  datatype FileWrite = FileWrite(storedName: string, base64: string)

  /** The document handed to `Message.create`. */
  datatype MessageRecord = MessageRecord(sender: Option<string>, recipient: JsValue, text: JsValue, file: Option<string>)

  /** Why the `async` listener stopped early: `new Buffer(undefined, 'base64')`
      threw because the data held no comma, or `Message.create` rejected. Either
      rejects the listener's promise, which nothing handles; what that does to
      the process lies outside this module. */
  datatype Failure = MissingBase64Body | StoreRejected

  /** Everything one inbound message causes. */
  datatype Handled = Handled(write: Option<FileWrite>, created: Option<MessageRecord>, sends: seq<Send>, failure: Option<Failure>)

  /** `recipient && (text || file)`. */
  predicate Accepts(p: Payload)
  {
    Truthy(p.recipient) && (Truthy(p.text) || p.file.Some?)
  }

  /** The attachment is present but its data has no base64 body to decode. */
  predicate BodyMissing(p: Payload)
  {
    p.file.Some? && Base64Body(p.file.value.data).None?
  }

  /** With a plain string recipient and text, a message is created exactly when
      the recipient is non-empty and there is non-empty text or an attachment. */
  lemma AcceptsStringPayload(recipient: string, text: string, file: Option<Attachment>)
    ensures Accepts(Payload(Str(recipient), Str(text), file)) <==> recipient != "" && (text != "" || file.Some?)
    ensures !Accepts(Payload(Str(recipient), Undefined, None))
  {
  }

  method HandleMessage(sender: Option<string>, p: Payload, clients: seq<Client>, now: nat, saved: Option<MessageId>)
    returns (h: Handled)
    // a missing base64 body stops the listener before anything happens
    ensures BodyMissing(p) ==> h == Handled(None, None, [], Some(MissingBase64Body))
    // otherwise the file is written whenever one was sent, accepted or not
    ensures !BodyMissing(p) ==> (h.write.Some? <==> p.file.Some?)
    ensures h.write.Some? ==>
      h.write.value == FileWrite(StoredName(now, p.file.value.name), Base64Body(p.file.value.data).value)
    // a message is created if and only if the acceptance test passes
    ensures !BodyMissing(p) ==> (h.created.Some? <==> Accepts(p))
    ensures h.created.Some? ==>
      h.created.value == MessageRecord(sender, p.recipient, p.text,
                                       if p.file.Some? then Some(h.write.value.storedName) else None)
    ensures !BodyMissing(p) ==> (h.failure == Some(StoreRejected) <==> Accepts(p) && saved.None?)
    ensures !BodyMissing(p) ==> h.failure != Some(MissingBase64Body)
    // nothing is sent unless the message was created and stored
    ensures h.sends != [] ==> h.created.Some? && saved.Some?
    // a stored message goes to exactly the recipient's connections
    ensures h.created.Some? && saved.Some? ==>
      DeliversExactly(h.sends, Addressees(clients, p.recipient),
                      Delivery(p.text, sender, p.recipient, h.created.value.file, saved.value))
  {
    var storedName := "";
    var write: Option<FileWrite> := None;
    if p.file.Some? {
      storedName := StoredName(now, p.file.value.name);
      match Base64Body(p.file.value.data)
      case None =>
        return Handled(None, None, [], Some(MissingBase64Body));
      case Some(body) =>
        write := Some(FileWrite(storedName, body));
    }
    if Accepts(p) {
      var file := if p.file.Some? then Some(storedName) else None;
      var record := MessageRecord(sender, p.recipient, p.text, file);
      match saved
      case None =>
        return Handled(write, Some(record), [], Some(StoreRejected));
      case Some(id) =>
        var sends := FanOut(clients, p.recipient, Delivery(p.text, sender, p.recipient, file, id));
        return Handled(write, Some(record), sends, None);
    }
    h := Handled(write, None, [], None);
  }
}

=== FILE: registry.dfy ===
/** The server's set of open connections (`wss.clients`), as an ordered
    snapshot, and the two things the handler computes from it: the presence
    frame broadcast to everyone, and the connections a message is addressed
    to. A `Send` names its target by position in the snapshot, so two
    connections under one identity are two different targets. */
module Registry {
  import opened Wrappers
  import opened Js

  /** One open connection: `ws.userId` and `ws.username`, both unset until the
      handshake resolves them. */
  datatype Client = Client(userId: Option<string>, username: Option<string>)

  /** One element of the `online` array. */
  datatype Entry = Entry(userId: Option<string>, username: Option<string>)

  /** The `_id` the message store assigns to a saved message. */
  type MessageId = string

  /** The two kinds of frame the server pushes to a connection. */
  datatype Frame =
    | Presence(online: seq<Entry>)
    | Delivery(text: JsValue, sender: Option<string>, recipient: JsValue, file: Option<string>, id: MessageId)

  /** `clients[to].send(frame)`. */
  datatype Send = Send(to: nat, frame: Frame)

  function EntryOf(c: Client): Entry
  {
    Entry(c.userId, c.username)
  }

  /** `[...wss.clients].map(c => ({userId: c.userId, username: c.username}))`. */
  function Online(clients: seq<Client>): (r: seq<Entry>)
    ensures |r| == |clients|
    ensures forall i :: 0 <= i < |clients| ==> r[i] == EntryOf(clients[i])
  {
    if |clients| == 0 then [] else [EntryOf(clients[0])] + Online(clients[1..])
  }

  function PresenceFrame(clients: seq<Client>): Frame
  {
    Presence(Online(clients))
  }

  /** The presence frame is a projection of the registry: one entry per
      connection, so an identity with two open connections is listed twice,
      and an identity is listed only if some connection carries it. */
  lemma PresenceIsNotDeduplicated(clients: seq<Client>, i: nat, j: nat)
    requires i < j < |clients| && clients[i].userId == clients[j].userId
    ensures var online := PresenceFrame(clients).online;
      online[i].userId == online[j].userId == clients[i].userId
  {
  }

  lemma PresenceListsOnlyRegisteredIdentities(clients: seq<Client>, id: string)
    ensures (exists k :: 0 <= k < |PresenceFrame(clients).online| && PresenceFrame(clients).online[k].userId == Some(id))
        <==> (exists i :: 0 <= i < |clients| && clients[i].userId == Some(id))
  {
    var online := PresenceFrame(clients).online;
    if exists i :: 0 <= i < |clients| && clients[i].userId == Some(id) {
      var i :| 0 <= i < |clients| && clients[i].userId == Some(id);
      assert online[i].userId == Some(id);
    }
  }

  /** One presence frame for each connection of the snapshot, in order. */
  ghost function PresenceToAll(clients: seq<Client>): seq<Send>
  {
    seq(|clients|, i requires 0 <= i < |clients| => Send(i, PresenceFrame(clients)))
  }

  /** `notifyAboutOnlinePeople()`, and the same loop written inline when a
      connection opens: every connection in the snapshot, in order, is sent
      the one presence frame computed from that snapshot. */
  method NotifyAboutOnlinePeople(clients: seq<Client>) returns (sends: seq<Send>)
    ensures |sends| == |clients|
    ensures forall i :: 0 <= i < |clients| ==> sends[i] == Send(i, PresenceFrame(clients))
    ensures sends == PresenceToAll(clients)
  {
    sends := [];
    var i := 0;
    while i < |clients|
      invariant 0 <= i <= |clients|
      invariant |sends| == i
      invariant forall k :: 0 <= k < i ==> sends[k] == Send(k, PresenceFrame(clients))
    {
      sends := sends + [Send(i, Presence(Online(clients)))];
      i := i + 1;
    }
  }

  /** The connections a message for `recipient` goes to: those whose
      `userId === recipient`. */
  ghost function Addressees(clients: seq<Client>, recipient: JsValue): set<nat>
  {
    AddresseesBefore(clients, recipient, |clients|)
  }

  /** The addressees among the first `n` connections. */
  ghost function AddresseesBefore(clients: seq<Client>, recipient: JsValue, n: nat): set<nat>
    requires n <= |clients|
  {
    set i: nat | i < n && SameIdentity(clients[i].userId, recipient)
  }

  ghost function Targets(sends: seq<Send>): set<nat>
  {
    set k | 0 <= k < |sends| :: sends[k].to
  }

  lemma TargetsAppend(sends: seq<Send>, s: Send)
    ensures Targets(sends + [s]) == Targets(sends) + {s.to}
  {
    var longer := sends + [s];
    assert longer[|sends|].to == s.to;
    forall x | x in Targets(sends)
      ensures x in Targets(longer)
    {
      var k :| 0 <= k < |sends| && sends[k].to == x;
      assert longer[k].to == x;
    }
  }

  /** `sends` delivers `frame` once to each connection in `targets`, in
      registry order, and to nothing else. */
  ghost predicate DeliversExactly(sends: seq<Send>, targets: set<nat>, frame: Frame)
  {
    && Targets(sends) == targets
    && (forall k :: 0 <= k < |sends| ==> sends[k].frame == frame)
    && (forall a, b :: 0 <= a < b < |sends| ==> sends[a].to < sends[b].to)
  }

  /** `[...wss.clients].filter(c => c.userId === recipient).forEach(c => c.send(frame))`. */
  method FanOut(clients: seq<Client>, recipient: JsValue, frame: Frame) returns (sends: seq<Send>)
    ensures DeliversExactly(sends, Addressees(clients, recipient), frame)
  {
    sends := [];
    var i := 0;
    while i < |clients|
      invariant 0 <= i <= |clients|
      invariant Targets(sends) == AddresseesBefore(clients, recipient, i)
      invariant forall k :: 0 <= k < |sends| ==> sends[k].frame == frame && sends[k].to < i
      invariant forall a, b :: 0 <= a < b < |sends| ==> sends[a].to < sends[b].to
    {
      if SameIdentity(clients[i].userId, recipient) {
        TargetsAppend(sends, Send(i, frame));
        sends := sends + [Send(i, frame)];
      }
      assert AddresseesBefore(clients, recipient, i + 1)
          == AddresseesBefore(clients, recipient, i)
             + (if SameIdentity(clients[i].userId, recipient) then {i} else {});
      i := i + 1;
    }
  }

  /** Several connections under one identity are all reached. */
  lemma EveryConnectionOfTheIdentityIsReached(clients: seq<Client>, sends: seq<Send>, frame: Frame, id: string, i: nat)
    requires DeliversExactly(sends, Addressees(clients, Str(id)), frame)
    requires i < |clients| && clients[i].userId == Some(id)
    ensures exists k :: 0 <= k < |sends| && sends[k] == Send(i, frame)
  {
    assert i in Addressees(clients, Str(id));
    var k :| 0 <= k < |sends| && sends[k].to == i;
    assert sends[k] == Send(i, frame);
  }
}

=== FILE: strings.dfy ===
/** The few JavaScript string operations the connection handler relies on:
    `indexOf` of a single character, `split` on a one-character separator,
    indexing into the result of `split`, and substring search (what
    `String.prototype.match` does with a pattern free of regular-expression
    metacharacters, such as "token="). */
module Strings {
  import opened Wrappers

  /** Position of the first occurrence of `c` in `s`. */
  function IndexOf(s: string, c: char): (r: Option<nat>)
    ensures r.Some? ==> r.value < |s| && s[r.value] == c && c !in s[..r.value]
    ensures r.None? ==> c !in s
  {
    if |s| == 0 then None
    else if s[0] == c then Some(0)
    else
      match IndexOf(s[1..], c)
      case None => None
      case Some(i) =>
        assert s[..i + 1] == [s[0]] + s[1..][..i];
        Some(i + 1)
  }

  /** `IndexOf` is determined by its contract: the first occurrence is unique. */
  lemma IndexOfIs(s: string, c: char, i: nat)
    requires i < |s| && s[i] == c && c !in s[..i]
    ensures IndexOf(s, c) == Some(i)
  {
    var r := IndexOf(s, c);
    assert s[i] in s;
    var j := r.value;
    assert forall k :: 0 <= k < i ==> s[..i][k] == s[k];
    assert forall k :: 0 <= k < j ==> s[..j][k] == s[k];
  }

  /** `s.split(sep)` for a one-character separator: the pieces between
      consecutive separators, always at least one piece ("" gives [""]). */
  function Split(s: string, sep: char): (parts: seq<string>)
    ensures |parts| >= 1
    ensures forall k :: 0 <= k < |parts| ==> sep !in parts[k]
    decreases |s|
  {
    match IndexOf(s, sep)
    case None => [s]
    case Some(i) => [s[..i]] + Split(s[i + 1..], sep)
  }

  /** `parts.join(sep)`: the inverse of `Split`. */
  function Join(parts: seq<string>, sep: char): string
    requires |parts| >= 1
  {
    if |parts| == 1 then parts[0] else parts[0] + [sep] + Join(parts[1..], sep)
  }

  /** Splitting loses nothing: joining the pieces gives the string back. */
  lemma {:induction false} SplitThenJoin(s: string, sep: char)
    ensures Join(Split(s, sep), sep) == s
    decreases |s|
  {
    match IndexOf(s, sep)
    case None =>
    case Some(i) =>
      var rest := Split(s[i + 1..], sep);
      assert Split(s, sep) == [s[..i]] + rest;
      assert ([s[..i]] + rest)[1..] == rest;
      SplitThenJoin(s[i + 1..], sep);
      assert s == s[..i] + [sep] + s[i + 1..];
  }

  /** Splitting is the unique decomposition: separator-free pieces joined by
      the separator split back into exactly those pieces. */
  lemma {:induction false} JoinThenSplit(parts: seq<string>, sep: char)
    requires |parts| >= 1
    requires forall k :: 0 <= k < |parts| ==> sep !in parts[k]
    ensures Split(Join(parts, sep), sep) == parts
    decreases |parts|
  {
    if |parts| == 1 {
      assert IndexOf(parts[0], sep).None?;
    } else {
      var p := parts[0];
      var tail := Join(parts[1..], sep);
      var s := p + [sep] + tail;
      assert s[..|p|] == p;
      IndexOfIs(s, sep, |p|);
      assert s[|p| + 1..] == tail;
      JoinThenSplit(parts[1..], sep);
      assert parts == [p] + parts[1..];
    }
  }

  /** `s.split(sep)[k]`: `None` plays the part of `undefined` past the end. */
  function Piece(s: string, sep: char, k: nat): Option<string>
  {
    var parts := Split(s, sep);
    if k < |parts| then Some(parts[k]) else None
  }

  /** `parts[parts.length - 1]` of `s.split(sep)`. */
  function LastPiece(s: string, sep: char): string
  {
    var parts := Split(s, sep);
    parts[|parts| - 1]
  }

  /** `t` is the text that follows the first separator of `s` (found at `i`)
      and runs up to the second separator or to the end of `s`. */
  ghost predicate SecondField(s: string, sep: char, i: nat, t: string)
  {
    && i < |s| && s[i] == sep && sep !in s[..i]
    && i + 1 + |t| <= |s| && s[i + 1..i + 1 + |t|] == t && sep !in t
    && (i + 1 + |t| == |s| || s[i + 1 + |t|] == sep)
  }

  /** The first piece of a split is the text before the first separator. */
  lemma FirstPiece(s: string, sep: char)
    ensures Split(s, sep)[0] == (match IndexOf(s, sep) case None => s case Some(i) => s[..i])
  {
  }

  /** `s.split(sep)[1]` exists exactly when `s` holds the separator, and it is
      then the text between the first and the second separator. */
  lemma PieceOne(s: string, sep: char, t: string)
    ensures Piece(s, sep, 1).Some? <==> sep in s
    ensures Piece(s, sep, 1) == Some(t) <==> exists i: nat :: SecondField(s, sep, i, t)
  {
    match IndexOf(s, sep)
    case None =>
      assert Split(s, sep) == [s];
      forall i: nat
        ensures !SecondField(s, sep, i, t)
      {
        NoSecondFieldWithoutSeparator(s, sep, i, t);
      }
    case Some(i) =>
      var rest := s[i + 1..];
      assert Split(s, sep) == [s[..i]] + Split(rest, sep);
      var u := Split(rest, sep)[0];
      assert Piece(s, sep, 1) == Some(u);
      FirstPiece(rest, sep);
      assert SecondField(s, sep, i, u) by {
        match IndexOf(rest, sep)
        case None =>
          assert s[i + 1..i + 1 + |u|] == rest;
        case Some(j) =>
          assert s[i + 1..i + 1 + |u|] == rest[..j];
          assert s[i + 1 + |u|] == rest[j];
      }
      forall j, v | SecondField(s, sep, j, v)
        ensures v == u
      {
        IndexOfIs(s, sep, j);
        SecondFieldUnique(s, sep, i, u, v);
      }
  }

  lemma NoSecondFieldWithoutSeparator(s: string, sep: char, i: nat, t: string)
    requires sep !in s
    ensures !SecondField(s, sep, i, t)
  {
    if i < |s| {
      assert s[i] in s;
    }
  }

  lemma SecondFieldUnique(s: string, sep: char, i: nat, u: string, v: string)
    requires SecondField(s, sep, i, u) && SecondField(s, sep, i, v)
    ensures u == v
  {
    assert forall k :: 0 <= k < |v| ==> v[k] == s[i + 1 + k] && v[k] in v;
    assert forall k :: 0 <= k < |u| ==> u[k] == s[i + 1 + k] && u[k] in u;
  }

  /** `e` is the separator-free suffix of `s` that follows its last
      separator (the whole of `s` when there is none). */
  ghost predicate SuffixAfterLast(s: string, sep: char, e: string)
  {
    && |e| <= |s| && s[|s| - |e|..] == e && sep !in e
    && (|e| == |s| || s[|s| - |e| - 1] == sep)
  }

  /** The last piece is the separator-free suffix that follows the last
      separator. */
  lemma {:induction false} LastPieceIsSuffix(s: string, sep: char)
    ensures SuffixAfterLast(s, sep, LastPiece(s, sep))
    decreases |s|
  {
    match IndexOf(s, sep)
    case None =>
    case Some(i) =>
      var rest := s[i + 1..];
      assert Split(s, sep) == [s[..i]] + Split(rest, sep);
      var e := LastPiece(rest, sep);
      assert LastPiece(s, sep) == e;
      LastPieceIsSuffix(rest, sep);
      var k := |rest| - |e|;
      assert |s| - |e| == i + 1 + k;
      assert s[i + 1 + k..] == rest[k..];
      assert k > 0 ==> s[i + k] == rest[k - 1];
  }

  /** Conversely, whatever follows a separator and holds none is the last piece. */
  lemma {:induction false} LastPieceAfter(p: string, sep: char, e: string)
    requires sep !in e
    ensures LastPiece(p + [sep] + e, sep) == e
    decreases |p|
  {
    var s := p + [sep] + e;
    match IndexOf(p, sep)
    case None =>
      assert s[..|p|] == p;
      IndexOfIs(s, sep, |p|);
      assert s[|p| + 1..] == e;
      assert Split(e, sep) == [e];
    case Some(i) =>
      assert s[..i] == p[..i];
      IndexOfIs(s, sep, i);
      assert s[i + 1..] == p[i + 1..] + [sep] + e;
      assert Split(s, sep) == [s[..i]] + Split(s[i + 1..], sep);
      LastPieceAfter(p[i + 1..], sep, e);
  }

  /** `pat` occurs in `s` starting at position `i`. */
  ghost predicate OccursAt(s: string, pat: string, i: nat)
  {
    i + |pat| <= |s| && s[i..i + |pat|] == pat
  }

  /** Substring search, scanning from the left. */
  function Contains(s: string, pat: string): bool
    decreases |s|
  {
    if |s| < |pat| then false
    else s[..|pat|] == pat || Contains(s[1..], pat)
  }

  /** `Contains` finds an occurrence if and only if there is one. */
  lemma {:induction false} ContainsIff(s: string, pat: string)
    ensures Contains(s, pat) <==> exists i: nat :: OccursAt(s, pat, i)
    decreases |s|
  {
    if |s| < |pat| {
    } else if s[..|pat|] == pat {
      assert OccursAt(s, pat, 0);
    } else {
      ContainsIff(s[1..], pat);
      if Contains(s[1..], pat) {
        var i: nat :| OccursAt(s[1..], pat, i);
        assert s[i + 1..i + 1 + |pat|] == s[1..][i..i + |pat|];
        assert OccursAt(s, pat, i + 1);
      }
      if exists i: nat :: OccursAt(s, pat, i) {
        var i: nat :| OccursAt(s, pat, i);
        assert i != 0;
        assert s[1..][i - 1..i - 1 + |pat|] == s[i..i + |pat|];
        assert OccursAt(s[1..], pat, i - 1);
      }
    }
  }

  /** `segs.find(str => str.match(pat))`, as an index: the first piece that
      contains `pat`, if any. */
  function FirstContaining(segs: seq<string>, pat: string): (r: Option<nat>)
    ensures r.Some? ==> r.value < |segs| && Contains(segs[r.value], pat)
    ensures r.Some? ==> forall k :: 0 <= k < r.value ==> !Contains(segs[k], pat)
    ensures r.None? <==> forall k :: 0 <= k < |segs| ==> !Contains(segs[k], pat)
  {
    if |segs| == 0 then None
    else if Contains(segs[0], pat) then Some(0)
    else
      match FirstContaining(segs[1..], pat)
      case None => None
      case Some(i) => Some(i + 1)
  }
}

=== FILE: uploads.dfy ===
/** How the message handler names an uploaded attachment and what it writes:
    the stored name is the upload time in milliseconds, a dot, and the last
    '.'-separated piece of the original name; the bytes written are the
    base64 text after the first comma of the data URL. The clock reading
    (`Date.now()`) is a parameter. */
module Uploads {
  import opened Wrappers
  import opened Strings
  import opened Decimals

  /** The `file` field of an inbound message. */
  datatype Attachment = Attachment(name: string, data: string)

  /** `parts[parts.length - 1]` of `name.split('.')`: the text after the last
      dot, or the whole name when it has none. */
  function Extension(name: string): (ext: string)
    ensures '.' !in ext
    ensures |ext| <= |name| && name[|name| - |ext|..] == ext
    ensures |ext| == |name| || name[|name| - |ext| - 1] == '.'
    ensures '.' !in name ==> ext == name
  {
    LastPieceIsSuffix(name, '.');
    var e := LastPiece(name, '.');
    assert |e| < |name| ==> name[|name| - |e| - 1] in name;
    e
  }

  /** `Date.now() + '.' + ext`. Reading it back, the stored name splits on
      '.' into exactly the timestamp's digits and the original extension. */
  function StoredName(now: nat, name: string): (stored: string)
    ensures Split(stored, '.') == [Decimal(now), Extension(name)]
    ensures Extension(stored) == Extension(name)
  {
    var ext := Extension(name);
    var stored := Decimal(now) + "." + ext;
    assert Join([Decimal(now), ext], '.') == stored;
    JoinThenSplit([Decimal(now), ext], '.');
    LastPieceAfter(Decimal(now), '.', ext);
    stored
  }

  /** Stored names made at different milliseconds never collide; names made in
      the same millisecond collide exactly when the extensions agree. */
  lemma StoredNamesCollideOnlyWithinOneMillisecond(m: nat, a: string, n: nat, b: string)
    ensures StoredName(m, a) == StoredName(n, b) <==> m == n && Extension(a) == Extension(b)
  {
    if StoredName(m, a) == StoredName(n, b) {
      assert Split(StoredName(m, a), '.')[0] == Split(StoredName(n, b), '.')[0];
      DecimalInjective(m, n);
    }
  }

  /** `data.split(',')[1]`: undefined when the data holds no comma. */
  function Base64Body(data: string): (body: Option<string>)
    ensures body.Some? <==> ',' in data
    ensures body.Some? ==> ',' !in body.value
  {
    PieceOne(data, ',', "");
    Piece(data, ',', 1)
  }

  /** The body is the text between the first and the second comma. */
  lemma Base64BodyIsSecondField(data: string, body: string)
    ensures Base64Body(data) == Some(body) <==> exists i: nat :: SecondField(data, ',', i, body)
  {
    PieceOne(data, ',', body);
  }

  /** For a data URL (`data:<type>;base64,<body>`) the body is everything after
      its one comma. */
  lemma DataUrlBody(prefix: string, body: string)
    requires ',' !in prefix && ',' !in body
    ensures Base64Body(prefix + "," + body) == Some(body)
  {
    assert Join([prefix, body], ',') == prefix + "," + body;
    JoinThenSplit([prefix, body], ',');
  }
}

=== FILE: wrappers.dfy ===
/** The optional value used throughout the model for JavaScript's `undefined`
    (a missing header, a missing array element, an unset connection field). */
module Wrappers {

  datatype Option<+T> = None | Some(value: T)

}
